=== FILE: README.md ===
# opinionPlot in Dafny

A model of the computational core of `opinionPlot`, a small tool that reads an opinion
survey file, averages each respondent's 2D opinion points, colours them by quadrant, groups
the averages with k-means, and attaches a word count taken from each respondent's CV.

Each line of the opinion file reads `name x1,y1 x2,y2 ...`. `OpinionPlot.__init__` reads the
file into `Person` records. Each `Person` holds its coordinates, their average point and a
label. A `CVProcessor` reads the same file a second time, taking only the first space-separated
field of each line as a name. It then builds one `CV` per name from the lower-cased tokens of
that person's document, and each person is labelled `Word Count: n` from the CV at the same
position. The plotting methods compute:

- a closed outline through each person's points;
- a colour from the sign of x + y of the average point;
- for the cluster view, a palette colour and a link to the cluster centre for each person.

The model is written with immutable datatypes and pure functions over `real`. Loops that
build vertex lists are written as methods. The modules are:

- `Base`: `Option`, `Result` and the error kinds. The run aborts on these errors: a bad
  float, a missing comma component, a missing CV document, a label index out of range, an
  empty outline, and a cluster count or input that KMeans refuses. Also `MapAll`, the
  stop-at-first-failure loop.
- `Text`: the Python string operations the program uses. These are `str.split` with one
  separator, iteration over the lines of a file, `strip('\n')`, ASCII `lower()` and `str(n)`.
- `Geometry`: points, sums and means, and `calcAvg`.
- `Colour`: `calcColour`.
- `People`: `Person`, the coordinate-line parser `readFile` and `compileAvgPoints`.
- `Documents`: `cvProcessor.py`, which covers names, lower-casing, CVs, the word count and
  the count of "i" tokens.
- `Plotting`: `OpinionPlot.__init__` with its positional label join, the outline and colour
  of `plotPerson`, and the clamp, palette and centre links of `plotClusters`.

The external collaborators are parameters:

- Python's `float()` is `parseFloat: string -> Option<real>`. None stands for a ValueError.
- Opening, decoding and tokenising a CV file is `readDoc: string -> Option<seq<string>>`. None
  stands for any failure to open or decode the document: a missing file, another OS error, or
  a document that is not valid UTF-8.
- KMeans `fit`/`predict` is `kmeans: (seq<Point>, int) -> Fit`. It is assumed to return k
  centres and ids in [0, k) whenever 1 <= k <= number of points.

numpy's mean of an empty list is NaN. The model represents that NaN average point as `None`
and does not treat it as a number. `calcColour` compares the sum with 0 and NaN makes both
comparisons false, so `Colour.AverageColour` returns black for `None`.

## Model

| member | source | states |
|---|---|---|
| Base.MapAll | opinionPlot.py:28-34 | The loop succeeds iff every element succeeds. On success the results are in order, one per element. On failure the error is that of the first failing element, and every earlier element succeeded. |
| Text.Split | opinionPlot.py:25 | `str.split(sep)` always yields at least one field and no field contains the separator. Joining the fields with the separator gives back the input. |
| Text.SplitJoin | opinionPlot.py:25 | Round trip: splitting a join of separator-free fields returns exactly those fields. |
| Text.SplitAround | opinionPlot.py:25 | Splitting `a + sep + b` gives the fields of `a` followed by the fields of `b`. |
| Text.FirstFieldIsPrefix | cvProcessor.py:11 | The first field is a prefix of the string and contains no separator. The separator follows it unless it is the whole string, and a string without the separator is its own first field. |
| Text.DoubledSeparator | opinionPlot.py:25 | Two separators in a row produce an empty field, and that field is not the first one. |
| Text.TrailingSeparator | opinionPlot.py:25 | A string ending in the separator has an empty last field and at least two fields. |
| Text.Lines | opinionPlot.py:23 | File iteration: the lines concatenate back to the text. Each line is non-empty and has a newline at most as its last character. Every line but the last ends in a newline. There are no lines exactly when the text is empty. |
| Text.TrimLeadingNewlines | opinionPlot.py:24 | `lstrip('\n')` returns a suffix of the input. Everything it drops is a newline, and the result does not begin with one. |
| Text.TrimTrailingNewlines | opinionPlot.py:24 | `rstrip('\n')` returns a prefix of the input. Everything it drops is a newline, and the result does not end with one. |
| Text.StripNewlines | opinionPlot.py:24 | `strip('\n')` never lengthens its input. The result neither begins nor ends with a newline, and a string without newlines is unchanged. |
| Text.StripNewlinesKeepsInfix | opinionPlot.py:24 | What `strip('\n')` keeps is one contiguous piece of its input, and everything before and after that piece is a newline. |
| Text.StripLine | opinionPlot.py:24 | Stripping a line from file iteration removes exactly its terminating newline, if it has one. |
| Text.LowerIdempotent | cvProcessor.py:17 | A lower-cased string is its own lower case. |
| Text.Lower | cvProcessor.py:17 | `lower()` keeps the length. No ASCII capital survives, each capital becomes its lower-case letter, and every other character is unchanged. |
| Text.LowerIsI | cvProcessor.py:17 | Exactly "i" and "I" lower-case to "i". |
| Text.NatToString | opinionPlot.py:17 | `str(n)` is a non-empty digit string with no leading zero unless n is 0. |
| Text.NatToStringRoundTrip | opinionPlot.py:17 | Reading the decimal rendering of n back gives n. |
| Geometry.Mean | opinionPlot.py:193-194 | `np.mean` of a non-empty list times the list's length is the list's sum. |
| Geometry.Centroid | opinionPlot.py:186-195 | For a non-empty list, the number of points times the centroid's x is the sum of the xs, and likewise for y. |
| Geometry.AvgPoint | opinionPlot.py:186-195 | `calcAvg` gives a point exactly when there are coordinates, and that point is their centroid. |
| Geometry.SumBounds | opinionPlot.py:193-194 | A sum of n values in [lo, hi] lies in [n·lo, n·hi]. |
| Geometry.MeanBounds | opinionPlot.py:193-194 | The mean lies within any bounds of its values. |
| Geometry.CentroidInBoundingBox | opinionPlot.py:186-195 | On each axis, the centroid lies between the least and the greatest value of that axis. |
| Geometry.CentroidOfCopies | opinionPlot.py:186-195 | The centroid of copies of one point is that point. |
| Geometry.CentroidExample | opinionPlot.py:186-195 | The points (1,1), (2,2), (-1,-1) average to (2/3, 2/3). |
| Colour.CalcColour | opinionPlot.py:44-62 | If x + y > 0 the colour is (1 - t/max, 1, 0). If x + y < 0 it is (1, 1 + t/min, 0). If x + y = 0 it is black. Blue is always 0 and nothing is clamped. |
| Colour.AverageColour | opinionPlot.py:104-108 | An undefined (NaN) average point is drawn black. A defined one gets `calcColour` at scale 20. |
| Colour.AverageColourBlack | opinionPlot.py:52-61 | A respondent is black exactly when its average is undefined or lies on the line x + y = 0. |
| Colour.ColourInUnitRange | opinionPlot.py:52-61 | With positive scales and -min <= x + y <= max, every channel lies in [0, 1]. |
| Colour.ColourDominance | opinionPlot.py:52-61 | With positive scales, green exceeds red exactly when x + y > 0, and red exceeds green exactly when x + y < 0. |
| Colour.ColourMirror | opinionPlot.py:52-61 | With equal scales, mirroring a point through the origin swaps red and green. |
| Colour.ColourExamples | opinionPlot.py:44-62 | At scale 20, (5,5) gives (0.5, 1, 0), (-5,-5) gives (1, 0.5, 0) and (0,0) gives black. |
| People.NewPerson | opinionPlot.py:180-184 | A new Person keeps its name and coordinates, and its label is "". Its average point is consistent with its coordinates and is defined iff there are coordinates. |
| People.Person.WithLabel | opinionPlot.py:17 | Assigning `additionalLabel` sets the label and leaves the name, coordinates and average unchanged. A consistent person stays consistent. |
| People.LineFields | opinionPlot.py:24-25 | The fields of a line contain no space, and joined with single spaces they give back the stripped line. There is always at least one field. |
| People.LineName | opinionPlot.py:24-26 | `pName` is a prefix of the stripped line that contains no space. A space follows it unless it is the whole stripped line. |
| People.ParseField | opinionPlot.py:29-33 | A field parses iff it has at least two comma components and the first two parse as floats. The point is those two values. A first component that is not a number is a NotANumber error for that component, reported before the second is indexed. A lone parseable component is a MissingComponent error. A second component that is not a number is a NotANumber error for it. |
| People.ParseLine | opinionPlot.py:24-34 | A line parses iff every field after the first parses. The person is named by the first field and has one point per further field, in order. The label is "" and the average is consistent. On failure the error is that of the first coordinate field that fails. |
| People.ReadFile | opinionPlot.py:19-35 | Exactly one person per line, in file order. Person i is the parse of line i. It succeeds iff every line parses. Otherwise the error is the parse error of the first bad line. |
| People.CompileAvgPoints | opinionPlot.py:37-42 | The result has the same length as `people`, and entry i is person i's average point. |
| People.ExtraComponentsIgnored | opinionPlot.py:29-33 | `a,b,rest` parses exactly as `a,b`. |
| People.FieldWithoutCommaFails | opinionPlot.py:29-32 | A field without a comma never parses, whatever `float()` does. The empty field is one such field. |
| People.EmptyFieldFails | opinionPlot.py:28-33 | A line with an empty coordinate field fails to parse. |
| People.TrailingSpaceFails | opinionPlot.py:24-33 | A stripped line ending in a space fails to parse. |
| People.DoubledSpaceFails | opinionPlot.py:24-33 | A stripped line containing two consecutive spaces fails to parse. |
| People.NameIsFirstField | opinionPlot.py:24-26 | The person's name is the text of the line before its first space. |
| Documents.ReadName | cvProcessor.py:11 | `l.split(" ")[0]` is a prefix of the line that contains no space. A space follows it unless it is the whole line. |
| Documents.ReadData | cvProcessor.py:9-11 | One name per line, in order. Name i is the first space-separated field of line i, which is not stripped. |
| Documents.ReadNameIsPrefix | cvProcessor.py:11 | A name is the prefix of its line before the first space, and contains no space. A line without a space is its own name, trailing newline included. |
| Documents.LowerAll | cvProcessor.py:17 | Lower-casing keeps the token count, and token i becomes the lower case of raw token i. |
| Documents.LowerAllIsLower | cvProcessor.py:17 | After the lower-casing map every token equals its own lower case, and the count is unchanged. |
| Documents.ReadCV | cvProcessor.py:13-18 | A missing document is a DocumentNotFound error for that name. Otherwise the result is the lower-cased tokens. |
| Documents.NewCV | cvProcessor.py:21-27 | `wordCount` is the token count. `iCount` counts the tokens exactly equal to "i" and never exceeds `wordCount`. |
| Documents.Occurrences | cvProcessor.py:27 | `count(w)` never exceeds the number of tokens, and it is 0 exactly when `w` is not a token. |
| Documents.OccurrencesAppend | cvProcessor.py:27 | The token count adds over concatenation. |
| Documents.OccurrencesExtremes | cvProcessor.py:27 | The count is 0 iff the word is absent, and equals the length iff every token is the word. |
| Documents.ICountIsCaseInsensitive | cvProcessor.py:17-27 | The "i" count after lower-casing counts the raw "i" and "I" tokens together. It is a whole-token match. |
| Documents.CountExample | cvProcessor.py:16-27 | The tokens I, like, i, tea give wordCount 4 and iCount 2. |
| Documents.BuildCVs | cvProcessor.py:7 | Succeeds iff every name has a document. On success there is one CV per name, in order, built from that name's lower-cased tokens. On failure the error names the first missing document. |
| Documents.NewCVProcessor | cvProcessor.py:5-7 | The names are those of the file's lines. It succeeds iff every name has a document. There is one CV per line, and CV i is built from name i and the lower-cased tokens of that name's document. On failure the error names the first name without a document. |
| Plotting.AttachLabels | opinionPlot.py:16-17 | The positional join succeeds iff there are at least as many CVs as people. Person i keeps its name, coordinates and average, and its label becomes "Word Count: " followed by CV i's word count. Too few CVs is an IndexError at the first missing index. |
| Plotting.NewOpinionPlot | opinionPlot.py:11-17 | There is one person, one average point and one CV per line of the file. Person i is the parse of line i with a new label, and the CV processor is the one `CVProcessor` builds from the same file. CV i is named by `readData` from line i. Person i is labelled with CV i's word count. Construction succeeds exactly when every line parses and every `readData` name has a document. A parse error takes precedence over a missing document because `readFile` runs first. When every line parses and a document is missing, the error is the one `CVProcessor` raises for the first name without a document. The positional join never fails, so the only errors are parse errors and missing documents. |
| Plotting.NamesAgree | opinionPlot.py:24-26 | For a line that contains a space, `readFile` and `readData` take the same name. |
| Plotting.NamesDisagreeWithoutSpace | cvProcessor.py:11 | For a newline-terminated line without a space, `readData` keeps the newline in the name but `readFile` strips it, so the two names differ. |
| Plotting.WordCountLabel | opinionPlot.py:17 | The label starts with "Word Count: " and is followed by at least one character, all of them digits. |
| Plotting.LabelIsDocumentLength | opinionPlot.py:11-17 | End to end: on success, the document of the name `readData` takes from line i exists, and person i's label is "Word Count: " followed by that document's token count. |
| Plotting.LabelRoundTrip | opinionPlot.py:17 | A label starts with "Word Count: " and the rest is digits whose value is the word count. |
| Plotting.ClosedOutline | opinionPlot.py:80-87 | For n >= 1 points the outline has n + 1 vertices. The first n are the points in order and the last repeats the first. No points gives the IndexError case. |
| Plotting.ClosedOutlineVertices | opinionPlot.py:82-87 | The vertices of a closed outline are the points followed by the first point. |
| Plotting.PlotPerson | opinionPlot.py:75-95 | Fails iff the person has no coordinates. Otherwise the outline closes through the coordinates and the marker is their centroid. The colour is `calcColour` of the marker at scale 20, and the caption is name, space, label. |
| Plotting.ClampClusters | opinionPlot.py:116-117 | The effective count is at most 6 and at most the request. It equals the request unless it is 6. |
| Plotting.ClampIdempotent | opinionPlot.py:116-117 | Clamping twice is clamping once. |
| Plotting.ClampMonotone | opinionPlot.py:116-117 | Clamping preserves the order of requests. |
| Plotting.LinkClusters | opinionPlot.py:139-165 | There is one mark per point, in order. Mark i has the palette colour of its id and is linked to that cluster's centre. Every colour is among the first k palette entries, so no palette index is out of bounds. |
| Plotting.PlotClusters | opinionPlot.py:113-168 | A clamped count below 1, a NaN average or fewer points than clusters each give their error, and it succeeds exactly when none of these holds. Then each person is drawn at its average in the palette colour of its id and linked to that centre. The k centres are drawn. |
| Plotting.DistinctIdsAtMostK | opinionPlot.py:147-151 | A fit into k clusters uses at most k distinct ids. |
| Plotting.AtMostSixClusters | opinionPlot.py:116-151 | Whatever count is requested, the cluster view uses at most six distinct cluster ids. |

## Left out

- All matplotlib calls are left out (`figure`, `plot`, `annotate`, `axhline`/`axvline`,
  `show`). These include `addOriginLines`, `plotOpinions`, `plotAvgOpinions` and
  `plotPersonAvg` as draw sequences. The values they draw are modelled: outline vertices,
  colours, markers, captions and centre links.
- The KMeans fit itself (random initialisation, `n_init=1`) is left out. It is an oracle
  parameter whose results are assumed valid.
- `nltk.word_tokenize`, `nltk.Text` and opening `cvs/<name>.txt` are left out. Together they
  are the `readDoc` parameter.
- Opening the opinion file is I/O. The model takes the file contents as a string. Universal
  newlines (`\r` and `\r\n` read as `\n`) are not modelled: only `\n` ends a line.
- IEEE floats are not modelled. Coordinates and colours are `real`. `float()` is an abstract
  partial parser, and numpy's NaN mean of an empty list is `None`, not a number.
- Colour.CalcColour: requires both scales to be non-zero. numpy would divide by zero and
  yield an infinity, and reals have no such value. Every call in the source passes 20.
- Lower-casing maps only ASCII A-Z. Python's Unicode case mapping is not modelled, so
  `Text.Lower` leaves other letters unchanged.
- The `clusters` attribute of `OpinionPlot` is always the empty list and is never read, so
  it is left out of the model.
- main.py is left out. It only orchestrates the calls above with a hard-coded path.

=== FILE: base.dfy ===
/** Failure-compatible wrappers and the error kinds the modelled program can raise. */
module Base {

  datatype Option<+T> = None | Some(value: T)

  /** Every way a run of the program aborts, named after the Python exception's cause. */
  datatype Error =
    | NotANumber(text: string)              // float() raised ValueError on a coordinate component
    | MissingComponent(field: string)       // coords[1] raised IndexError: the field has no ','
    | DocumentNotFound(name: string)        // opening or decoding the CV file of `name` failed
    | LabelIndexOutOfRange(index: nat)      // self.cvp.CVs[i] raised IndexError
    | EmptyCoordinates(name: string)        // xs[0] raised IndexError in plotPerson
    | InvalidClusterCount(k: int)           // KMeans refuses n_clusters < 1
    | UndefinedAverage                      // KMeans refuses a NaN average point
    | TooFewSamples(samples: nat, k: int)   // KMeans refuses fewer points than clusters

  /** The errors `float()` and list indexing raise while reading coordinates. */
  predicate IsParseError(e: Error) {
    e.NotANumber? || e.MissingComponent?
  }

  datatype Result<+T> = Ok(value: T) | Err(error: Error) {

    predicate IsFailure() {
      Err?
    }

    function PropagateFailure<U>(): Result<U>
      requires Err?
    {
      Err(error)
    }

    function Extract(): T
      requires Ok?
    {
      value
    }
  }

  /**
   * Applies `f` to every element in order and stops at the first failure, as a Python
   * loop does when one iteration raises.
   */
  function MapAll<A, B>(xs: seq<A>, f: A -> Result<B>): (r: Result<seq<B>>)
    ensures r.Ok? <==> forall i :: 0 <= i < |xs| ==> f(xs[i]).Ok?
    ensures r.Ok? ==> |r.value| == |xs|
    ensures r.Ok? ==> forall i :: 0 <= i < |xs| ==> f(xs[i]) == Ok(r.value[i])
    ensures r.Err? ==>
      exists i :: 0 <= i < |xs| && f(xs[i]) == Err(r.error) &&
        forall j :: 0 <= j < i ==> f(xs[j]).Ok?
    decreases |xs|
  {
    if |xs| == 0 then Ok([])
    else
      match f(xs[0])
      case Err(e) => Err(e)
      case Ok(y) =>
        match MapAll(xs[1..], f)
        case Err(e) =>
          assert forall k :: 0 <= k < |xs| - 1 ==> xs[1..][k] == xs[k + 1];
          Err(e)
        case Ok(ys) => Ok([y] + ys)
  }
}

=== FILE: colour.dfy ===
/** The quadrant colour policy `OpinionPlot.calcColour`. */
module Colour {
  import opened Base
  import opened Geometry

  /** An (r, g, b) triple as matplotlib takes it. */
  datatype Rgb = Rgb(r: real, g: real, b: real)

  const Black := Rgb(0.0, 0.0, 0.0)

  /** The scale both plotting paths pass for `max` and `min`. */
  const DefaultScale := 20.0

  /**
   * The colour of a position: green-dominant with fading red when x + y is positive,
   * red-dominant with fading green when it is negative, and black when it is zero.
   * No channel is clamped, and blue is always 0.
   */
  function CalcColour(pos: Point, maxScale: real, minScale: real): (c: Rgb)
    requires maxScale != 0.0 && minScale != 0.0
    ensures c.b == 0.0
    ensures pos.x + pos.y > 0.0 ==> c.g == 1.0 && c.r == 1.0 - (pos.x + pos.y) / maxScale
    ensures pos.x + pos.y < 0.0 ==> c.r == 1.0 && c.g == 1.0 + (pos.x + pos.y) / minScale
    ensures pos.x + pos.y == 0.0 ==> c == Black
  {
    var t := pos.x + pos.y;
    var r, g :=
      if t > 0.0 then 1.0 - t / maxScale
      else if t < 0.0 then 1.0 else 0.0,
      if t > 0.0 then 1.0
      else if t < 0.0 then 1.0 + t / minScale else 0.0;
    Rgb(r, g, 0.0)
  }

  /**
   * The colour of an average point that numpy may have left undefined: every comparison
   * with NaN is false, so neither branch of `calcColour` is taken and the colour is black.
   */
  function AverageColour(avg: Option<Point>): (c: Rgb)
    ensures avg.None? ==> c == Black
    ensures avg.Some? ==> c == CalcColour(avg.value, DefaultScale, DefaultScale)
  {
    match avg
    case None => Black
    case Some(p) => CalcColour(p, DefaultScale, DefaultScale)
  }

  /**
   * A respondent is drawn black exactly when its average point is undefined or lies on the
   * neutral line x + y = 0.
   */
  lemma AverageColourBlack(avg: Option<Point>)
    ensures AverageColour(avg) == Black <==> avg.None? || avg.value.x + avg.value.y == 0.0
  {
    if avg.Some? {
      ColourDominance(avg.value, DefaultScale, DefaultScale);
    }
  }

  /**
   * With positive scales, the colour of a position whose x + y lies within the scales is a
   * valid colour: every channel is in [0, 1].
   */
  lemma ColourInUnitRange(pos: Point, maxScale: real, minScale: real)
    requires maxScale > 0.0 && minScale > 0.0
    requires -minScale <= pos.x + pos.y <= maxScale
    ensures var c := CalcColour(pos, maxScale, minScale);
      0.0 <= c.r <= 1.0 && 0.0 <= c.g <= 1.0 && c.b == 0.0
  {
    var t := pos.x + pos.y;
    if t > 0.0 {
      assert (1.0 - t / maxScale) * maxScale == maxScale - t;
    } else if t < 0.0 {
      assert (1.0 + t / minScale) * minScale == minScale + t;
    }
  }

  /**
   * With a positive scale, green dominates exactly on the positive side and red exactly on
   * the negative side.
   */
  lemma ColourDominance(pos: Point, maxScale: real, minScale: real)
    requires maxScale > 0.0 && minScale > 0.0
    ensures var c := CalcColour(pos, maxScale, minScale);
      && (c.g > c.r <==> pos.x + pos.y > 0.0)
      && (c.r > c.g <==> pos.x + pos.y < 0.0)
  {
    var t := pos.x + pos.y;
    if t > 0.0 {
      assert t / maxScale > 0.0;
    } else if t < 0.0 {
      assert t / minScale < 0.0;
    }
  }

  /** Mirroring a point through the origin swaps red and green when both scales are equal. */
  lemma ColourMirror(pos: Point, scale: real)
    requires scale != 0.0
    ensures var c := CalcColour(pos, scale, scale);
      var m := CalcColour(Point(-pos.x, -pos.y), scale, scale);
      m == Rgb(c.g, c.r, 0.0)
  {
    var t := pos.x + pos.y;
    assert -pos.x + -pos.y == -t;
    assert -t / scale == -(t / scale);
  }

  /** At scale 20, (5,5) is (0.5, 1, 0), (-5,-5) is (1, 0.5, 0) and the origin is black. */
  lemma ColourExamples()
    ensures CalcColour(Point(5.0, 5.0), DefaultScale, DefaultScale) == Rgb(0.5, 1.0, 0.0)
    ensures CalcColour(Point(-5.0, -5.0), DefaultScale, DefaultScale) == Rgb(1.0, 0.5, 0.0)
    ensures CalcColour(Point(0.0, 0.0), DefaultScale, DefaultScale) == Black
  {
  }
}

=== FILE: documents.dfy ===
/**
 * `cvProcessor.py`: the respondent names of a file, and one CV per name with its word
 * count and its count of the token "i".
 */
module Documents {
  import opened Base
  import opened Text

  /**
   * Reading, decoding and tokenising the CV of a name (`open("cvs/" + name + ".txt")`, `read()`
   * as UTF-8, then `nltk.word_tokenize`): its raw tokens, or None when the document cannot be
   * opened or decoded.
   */
  type DocumentReader = string -> Option<seq<string>>

  /** A CV: its owner's name, its lower-cased tokens and the two counts taken from them. */
  datatype CV = CV(name: string, text: seq<string>, wordCount: nat, iCount: nat)

  /** The number of tokens equal to `w`. */
  function Occurrences(tokens: seq<string>, w: string): (n: nat)
    ensures n <= |tokens|
    ensures n == 0 <==> w !in tokens
    decreases |tokens|
  {
    if |tokens| == 0 then 0
    else
      assert tokens == [tokens[0]] + tokens[1..];
      (if tokens[0] == w then 1 else 0) + Occurrences(tokens[1..], w)
  }

  /** `readData` for one line: the text before the first space, newline included when there is no space. */
  function ReadName(line: string): (name: string)
    ensures name <= line && ' ' !in name
    ensures |name| < |line| ==> line[|name|] == ' '
  {
    FirstFieldIsPrefix(line, ' ');
    Split(line, ' ')[0]
  }

  /** `readData`: one name per line of the file, in order; the file is given as its lines. */
  function ReadData(lines: seq<string>): (names: seq<string>)
    ensures |names| == |lines|
    ensures forall i :: 0 <= i < |names| ==> names[i] == ReadName(lines[i])
  {
    seq(|lines|, i requires 0 <= i < |lines| => ReadName(lines[i]))
  }

  /** `[w.lower() for w in tokens]`: same count, each token lower-cased. */
  function LowerAll(tokens: seq<string>): (r: seq<string>)
    ensures |r| == |tokens|
    ensures forall i :: 0 <= i < |tokens| ==> r[i] == Lower(tokens[i])
  {
    seq(|tokens|, i requires 0 <= i < |tokens| => Lower(tokens[i]))
  }

  /** `readCV`: the lower-cased tokens of the name's document. */
  function ReadCV(name: string, readDoc: DocumentReader): (r: Result<seq<string>>)
    ensures r.Err? <==> readDoc(name).None?
    ensures r.Err? ==> r.error == DocumentNotFound(name)
    ensures r.Ok? ==> r.value == LowerAll(readDoc(name).value)
  {
    match readDoc(name)
    case None => Err(DocumentNotFound(name))
    case Some(raw) => Ok(LowerAll(raw))
  }

  /**
   * `CV(name, text)`: the word count is the number of tokens and the "i" count the number
   * of tokens that are exactly "i", so it never exceeds the word count.
   */
  function NewCV(name: string, text: seq<string>): (cv: CV)
    ensures cv.name == name && cv.text == text
    ensures cv.wordCount == |text|
    ensures cv.iCount == Occurrences(text, "i") <= cv.wordCount
  {
    CV(name, text, |text|, Occurrences(text, "i"))
  }

  /** The state a `CVProcessor` holds once constructed. */
  datatype CVProcessor = CVProcessor(names: seq<string>, cvs: seq<CV>)

  /** The CV of every name, in order; the first missing document aborts. */
  function BuildCVs(names: seq<string>, readDoc: DocumentReader): (r: Result<seq<CV>>)
    ensures r.Ok? <==> forall i :: 0 <= i < |names| ==> readDoc(names[i]).Some?
    ensures r.Ok? ==> |r.value| == |names|
    ensures r.Ok? ==> forall i :: 0 <= i < |names| ==>
      r.value[i] == NewCV(names[i], LowerAll(readDoc(names[i]).value))
    ensures r.Err? ==>
      exists i :: 0 <= i < |names| && readDoc(names[i]).None? && r.error == DocumentNotFound(names[i]) &&
        forall j :: 0 <= j < i ==> readDoc(names[j]).Some?
  {
    MapAll(names, n => match ReadCV(n, readDoc) case Err(e) => Err(e) case Ok(text) => Ok(NewCV(n, text)))
  }

  /** `CVProcessor(fileName)`: the names of the file, then one CV per name. */
  function NewCVProcessor(text: string, readDoc: DocumentReader): (r: Result<CVProcessor>)
    ensures r.Ok? ==> r.value.names == ReadData(Lines(text))
    ensures r.Ok? ==> |r.value.cvs| == |Lines(text)|
    ensures r.Ok? <==> forall i :: 0 <= i < |Lines(text)| ==> readDoc(ReadData(Lines(text))[i]).Some?
    ensures r.Ok? ==> forall i :: 0 <= i < |r.value.cvs| ==> r.value.cvs[i].name == r.value.names[i]
    ensures r.Ok? ==> forall i :: 0 <= i < |r.value.cvs| ==>
      && readDoc(r.value.names[i]).Some?
      && r.value.cvs[i] == NewCV(r.value.names[i], LowerAll(readDoc(r.value.names[i]).value))
    ensures r.Err? ==> r.error.DocumentNotFound?
    ensures r.Err? ==> BuildCVs(ReadData(Lines(text)), readDoc) == Err(r.error)
  {
    var names := ReadData(Lines(text));
    match BuildCVs(names, readDoc)
    case Err(e) =>
      assert exists i :: 0 <= i < |names| && readDoc(names[i]).None?;
      Err(e)
    case Ok(cvs) => Ok(CVProcessor(names, cvs))
  }

  // ---------------------------------------------------------------- properties of counting

  /** The count is additive over concatenation. */
  lemma {:induction false} OccurrencesAppend(a: seq<string>, b: seq<string>, w: string)
    ensures Occurrences(a + b, w) == Occurrences(a, w) + Occurrences(b, w)
    decreases |a|
  {
    if |a| > 0 {
      var c := if a[0] == w then 1 else 0;
      assert (a + b)[0] == a[0];
      assert (a + b)[1..] == a[1..] + b;
      assert Occurrences(a + b, w) == c + Occurrences(a[1..] + b, w);
      OccurrencesAppend(a[1..], b, w);
    } else {
      assert a + b == b;
    }
  }

  /** The count is zero exactly when the word does not occur, and full exactly when every token is the word. */
  lemma {:induction false} OccurrencesExtremes(tokens: seq<string>, w: string)
    ensures Occurrences(tokens, w) == 0 <==> w !in tokens
    ensures Occurrences(tokens, w) == |tokens| <==> forall i :: 0 <= i < |tokens| ==> tokens[i] == w
    decreases |tokens|
  {
    if |tokens| > 0 {
      OccurrencesExtremes(tokens[1..], w);
      assert tokens == [tokens[0]] + tokens[1..];
      assert forall i :: 1 <= i < |tokens| ==> tokens[i] == tokens[1..][i - 1];
    }
  }

  /**
   * Counting "i" after lower-casing counts the raw tokens "i" and "I" together, so the
   * count is case-insensitive but still a whole-token match.
   */
  lemma {:induction false} ICountIsCaseInsensitive(raw: seq<string>)
    ensures Occurrences(LowerAll(raw), "i") == Occurrences(raw, "i") + Occurrences(raw, "I")
    decreases |raw|
  {
    if |raw| > 0 {
      LowerIsI(raw[0]);
      assert LowerAll(raw)[1..] == LowerAll(raw[1..]);
      ICountIsCaseInsensitive(raw[1..]);
    }
  }

  /** Every lower-cased token is its own lower case, and lower-casing keeps the token count. */
  lemma LowerAllIsLower(raw: seq<string>)
    ensures |LowerAll(raw)| == |raw|
    ensures forall i :: 0 <= i < |raw| ==> Lower(LowerAll(raw)[i]) == LowerAll(raw)[i]
  {
    forall i | 0 <= i < |raw|
      ensures Lower(LowerAll(raw)[i]) == LowerAll(raw)[i]
    {
      LowerIdempotent(raw[i]);
    }
  }

  /** The tokens I, like, i, tea give four words and two "i" tokens. */
  lemma CountExample()
    ensures var cv := NewCV("Alice", LowerAll(["I", "like", "i", "tea"]));
      cv.wordCount == 4 && cv.iCount == 2
  {
    var raw := ["I", "like", "i", "tea"];
    ICountIsCaseInsensitive(raw);
    assert raw[1..] == ["like", "i", "tea"];
    assert raw[1..][1..] == ["i", "tea"];
    assert raw[1..][1..][1..] == ["tea"];
    assert raw[1..][1..][1..][1..] == [];
  }

  /** A name is the prefix of its line before the first space, and holds no space. */
  lemma ReadNameIsPrefix(line: string)
    ensures ReadName(line) <= line && ' ' !in ReadName(line)
    ensures |ReadName(line)| < |line| ==> line[|ReadName(line)|] == ' '
    ensures ' ' !in line ==> ReadName(line) == line
  {
    FirstFieldIsPrefix(line, ' ');
  }
}

=== FILE: geometry.dfy ===
/** Points in the opinion plane and the per-axis mean that `Person.calcAvg` computes. */
module Geometry {
  import opened Base

  /** A 2D opinion coordinate; the source keeps it as a two-element list `[x, y]`. */
  datatype Point = Point(x: real, y: real)

  function Sum(s: seq<real>): real
    decreases |s|
  {
    if |s| == 0 then 0.0 else s[0] + Sum(s[1..])
  }

  /** `np.mean` of a non-empty list. */
  function Mean(s: seq<real>): (m: real)
    requires |s| > 0
    ensures m * (|s| as real) == Sum(s)
  {
    Sum(s) / (|s| as real)
  }

  function Xs(pts: seq<Point>): (xs: seq<real>)
    ensures |xs| == |pts|
    ensures forall i :: 0 <= i < |pts| ==> xs[i] == pts[i].x
  {
    seq(|pts|, i requires 0 <= i < |pts| => pts[i].x)
  }

  function Ys(pts: seq<Point>): (ys: seq<real>)
    ensures |ys| == |pts|
    ensures forall i :: 0 <= i < |pts| ==> ys[i] == pts[i].y
  {
    seq(|pts|, i requires 0 <= i < |pts| => pts[i].y)
  }

  /**
   * The centroid of a non-empty point list: the mean of the xs and the mean of the ys,
   * taken independently. The count times each coordinate is that axis's total.
   */
  function Centroid(pts: seq<Point>): (c: Point)
    requires |pts| > 0
    ensures (|pts| as real) * c.x == Sum(Xs(pts))
    ensures (|pts| as real) * c.y == Sum(Ys(pts))
  {
    Point(Mean(Xs(pts)), Mean(Ys(pts)))
  }

  /**
   * `Person.calcAvg`: the centroid, or None for an empty coordinate list, where numpy's
   * mean is NaN and no number is meant.
   */
  function AvgPoint(pts: seq<Point>): (r: Option<Point>)
    ensures r.Some? <==> |pts| > 0
    ensures r.Some? ==> r.value == Centroid(pts)
  {
    if |pts| == 0 then None else Some(Centroid(pts))
  }

  function MinOf(s: seq<real>): (m: real)
    requires |s| > 0
    ensures m in s
    ensures forall i :: 0 <= i < |s| ==> m <= s[i]
    decreases |s|
  {
    if |s| == 1 then s[0]
    else
      var m := MinOf(s[1..]);
      assert forall i :: 1 <= i < |s| ==> s[i] == s[1..][i - 1];
      if s[0] <= m then s[0] else m
  }

  function MaxOf(s: seq<real>): (m: real)
    requires |s| > 0
    ensures m in s
    ensures forall i :: 0 <= i < |s| ==> s[i] <= m
    decreases |s|
  {
    if |s| == 1 then s[0]
    else
      var m := MaxOf(s[1..]);
      assert forall i :: 1 <= i < |s| ==> s[i] == s[1..][i - 1];
      if m <= s[0] then s[0] else m
  }

  /** A sum of n values within [lo, hi] lies within [n * lo, n * hi]. */
  lemma {:induction false} SumBounds(s: seq<real>, lo: real, hi: real)
    requires forall i :: 0 <= i < |s| ==> lo <= s[i] <= hi
    ensures (|s| as real) * lo <= Sum(s) <= (|s| as real) * hi
    decreases |s|
  {
    if |s| > 0 {
      assert forall i :: 0 <= i < |s| - 1 ==> s[1..][i] == s[i + 1];
      SumBounds(s[1..], lo, hi);
    }
  }

  /** The mean lies within any bounds of its values. */
  lemma MeanBounds(s: seq<real>, lo: real, hi: real)
    requires |s| > 0
    requires forall i :: 0 <= i < |s| ==> lo <= s[i] <= hi
    ensures lo <= Mean(s) <= hi
  {
    SumBounds(s, lo, hi);
    var n := |s| as real;
    assert Mean(s) * n == Sum(s);
  }

  /** The centroid lies in the bounding box of the points, between the least and greatest value of each axis. */
  lemma {:induction false} CentroidInBoundingBox(pts: seq<Point>)
    requires |pts| > 0
    ensures MinOf(Xs(pts)) <= Centroid(pts).x <= MaxOf(Xs(pts))
    ensures MinOf(Ys(pts)) <= Centroid(pts).y <= MaxOf(Ys(pts))
  {
    MeanBounds(Xs(pts), MinOf(Xs(pts)), MaxOf(Xs(pts)));
    MeanBounds(Ys(pts), MinOf(Ys(pts)), MaxOf(Ys(pts)));
  }

  /** The centroid of copies of one point is that point. */
  lemma CentroidOfCopies(pts: seq<Point>, p: Point)
    requires |pts| > 0
    requires forall i :: 0 <= i < |pts| ==> pts[i] == p
    ensures Centroid(pts) == p
  {
    MeanBounds(Xs(pts), p.x, p.x);
    MeanBounds(Ys(pts), p.y, p.y);
  }

  /** The points (1,1), (2,2), (-1,-1) average to (2/3, 2/3). */
  lemma CentroidExample()
    ensures Centroid([Point(1.0, 1.0), Point(2.0, 2.0), Point(-1.0, -1.0)]) == Point(2.0 / 3.0, 2.0 / 3.0)
  {
    var pts := [Point(1.0, 1.0), Point(2.0, 2.0), Point(-1.0, -1.0)];
    assert Xs(pts) == [1.0, 2.0, -1.0];
    assert Ys(pts) == [1.0, 2.0, -1.0];
    assert Sum([1.0, 2.0, -1.0]) == 2.0 by {
      assert [1.0, 2.0, -1.0][1..] == [2.0, -1.0];
      assert [2.0, -1.0][1..] == [-1.0];
      assert [-1.0][1..] == [];
    }
  }
}

=== FILE: people.dfy ===
/**
 * The respondents of an opinion file: the `Person` record, the coordinate-line parser
 * `OpinionPlot.readFile` and `OpinionPlot.compileAvgPoints`.
 */
module People {
  import opened Base
  import opened Text
  import opened Geometry

  /** Python's `float()` on one component: a value, or None where it raises ValueError. */
  type FloatParser = string -> Option<real>

  /**
   * A respondent. `avgPoint` is computed once at construction from `coordinates`, and
   * `additionalLabel` is the only field written afterwards.
   */
  datatype Person = Person(name: string, coordinates: seq<Point>, avgPoint: Option<Point>, additionalLabel: string) {

    /** The average point is the one `calcAvg` computes from the coordinates. */
    predicate Consistent() {
      avgPoint == AvgPoint(coordinates)
    }

    /** `person.additionalLabel = newLabel`: nothing else changes. */
    function WithLabel(newLabel: string): (p: Person)
      ensures p.name == name && p.coordinates == coordinates && p.avgPoint == avgPoint
      ensures p.additionalLabel == newLabel
      ensures Consistent() ==> p.Consistent()
    {
      this.(additionalLabel := newLabel)
    }
  }

  /** `Person(name, points)`: the label defaults to the empty string. */
  function NewPerson(name: string, points: seq<Point>): (p: Person)
    ensures p.Consistent()
    ensures p.name == name && p.coordinates == points && p.additionalLabel == ""
    ensures p.avgPoint.Some? <==> |points| > 0
  {
    Person(name, points, AvgPoint(points), "")
  }

  /**
   * One coordinate field `x,y[,...]`: its first two comma-separated components, parsed in
   * order; any further components are ignored.
   */
  function ParseField(field: string, parseFloat: FloatParser): (r: Result<Point>)
    ensures r.Ok? <==>
      && |Split(field, ',')| >= 2
      && parseFloat(Split(field, ',')[0]).Some?
      && parseFloat(Split(field, ',')[1]).Some?
    ensures r.Ok? ==>
      && parseFloat(Split(field, ',')[0]) == Some(r.value.x)
      && parseFloat(Split(field, ',')[1]) == Some(r.value.y)
    ensures r.Err? && parseFloat(Split(field, ',')[0]).Some? && |Split(field, ',')| < 2 ==>
      r.error == MissingComponent(field)
    ensures r.Err? ==> IsParseError(r.error)
    ensures parseFloat(Split(field, ',')[0]).None? ==> r == Err(NotANumber(Split(field, ',')[0]))
    ensures |Split(field, ',')| >= 2 && parseFloat(Split(field, ',')[0]).Some? && parseFloat(Split(field, ',')[1]).None? ==>
      r == Err(NotANumber(Split(field, ',')[1]))
  {
    var coords := Split(field, ',');
    match parseFloat(coords[0])
    case None => Err(NotANumber(coords[0]))
    case Some(x) =>
      if |coords| < 2 then Err(MissingComponent(field))
      else
        match parseFloat(coords[1])
        case None => Err(NotANumber(coords[1]))
        case Some(y) => Ok(Point(x, y))
  }

  /** The space-separated fields of a line once its newlines are stripped. */
  function LineFields(line: string): (fs: seq<string>)
    ensures |fs| > 0
    ensures SeparatorFree(fs, ' ') && Join(fs, ' ') == StripNewlines(line)
  {
    Split(StripNewlines(line), ' ')
  }

  /** The name of a line's respondent: the first field. */
  function LineName(line: string): (name: string)
    ensures name <= StripNewlines(line) && ' ' !in name
    ensures |name| < |StripNewlines(line)| ==> StripNewlines(line)[|name|] == ' '
  {
    FirstFieldIsPrefix(StripNewlines(line), ' ');
    LineFields(line)[0]
  }

  /**
   * The loop body of `readFile` for one line: the first field names the respondent and
   * every further field is one point.
   */
  function ParseLine(line: string, parseFloat: FloatParser): (r: Result<Person>)
    ensures r.Ok? <==> forall i :: 1 <= i < |LineFields(line)| ==> ParseField(LineFields(line)[i], parseFloat).Ok?
    ensures r.Err? ==> IsParseError(r.error)
    ensures r.Err? ==>
      exists i :: 1 <= i < |LineFields(line)| && ParseField(LineFields(line)[i], parseFloat) == Err(r.error) &&
        forall j :: 1 <= j < i ==> ParseField(LineFields(line)[j], parseFloat).Ok?
    ensures r.Ok? ==> r.value.Consistent() && r.value.additionalLabel == ""
    ensures r.Ok? ==> r.value.name == LineName(line)
    ensures r.Ok? ==> |r.value.coordinates| == |LineFields(line)| - 1
    ensures r.Ok? ==> forall i :: 1 <= i < |LineFields(line)| ==>
      ParseField(LineFields(line)[i], parseFloat) == Ok(r.value.coordinates[i - 1])
  {
    var fields := LineFields(line);
    var points :- MapAll(fields[1..], f => ParseField(f, parseFloat));
    assert forall i :: 1 <= i < |fields| ==> fields[1..][i - 1] == fields[i];
    Ok(NewPerson(fields[0], points))
  }

  /**
   * `readFile`: one respondent per line of the file, in file order; the first bad field
   * aborts. The file is given as the lines `for l in f` yields.
   */
  function ReadFile(lines: seq<string>, parseFloat: FloatParser): (r: Result<seq<Person>>)
    ensures r.Ok? <==> forall i :: 0 <= i < |lines| ==> ParseLine(lines[i], parseFloat).Ok?
    ensures r.Err? ==> IsParseError(r.error)
    ensures r.Err? ==>
      exists i :: 0 <= i < |lines| && ParseLine(lines[i], parseFloat) == Err(r.error) &&
        forall j :: 0 <= j < i ==> ParseLine(lines[j], parseFloat).Ok?
    ensures r.Ok? ==> |r.value| == |lines|
    ensures r.Ok? ==> forall i :: 0 <= i < |lines| ==> ParseLine(lines[i], parseFloat) == Ok(r.value[i])
  {
    MapAll(lines, l => ParseLine(l, parseFloat))
  }

  /** `compileAvgPoints`: each respondent's average point, position by position. */
  function CompileAvgPoints(people: seq<Person>): (avg: seq<Option<Point>>)
    ensures |avg| == |people|
    ensures forall i :: 0 <= i < |people| ==> avg[i] == people[i].avgPoint
    decreases |people|
  {
    if |people| == 0 then []
    else [people[0].avgPoint] + CompileAvgPoints(people[1..])
  }

  // ---------------------------------------------------------------- properties of parsing

  /** A field with more than two components parses as its first two. */
  lemma ExtraComponentsIgnored(a: string, b: string, rest: string, parseFloat: FloatParser)
    requires ',' !in a && ',' !in b
    ensures ParseField(a + "," + b + "," + rest, parseFloat) == ParseField(a + "," + b, parseFloat)
  {
    var long := a + [','] + (b + [','] + rest);
    assert a + "," + b + "," + rest == long;
    assert a + "," + b == a + [','] + b;
    SplitWithoutSeparator(a, ',');
    SplitWithoutSeparator(b, ',');
    SplitAround(b, rest, ',');
    SplitAround(a, b + [','] + rest, ',');
    SplitAround(a, b, ',');
    var c1 := Split(long, ',');
    assert c1 == [a] + ([b] + Split(rest, ','));
    assert c1[0] == a && c1[1] == b;
    assert Split(a + [','] + b, ',') == [a, b];
  }

  /** A field without a comma (the empty field in particular) never parses. */
  lemma FieldWithoutCommaFails(field: string, parseFloat: FloatParser)
    requires ',' !in field
    ensures ParseField(field, parseFloat).Err?
  {
    SplitWithoutSeparator(field, ',');
  }

  /** A line with an empty coordinate field fails to parse. */
  lemma EmptyFieldFails(line: string, i: nat, parseFloat: FloatParser)
    requires 1 <= i < |LineFields(line)| && LineFields(line)[i] == ""
    ensures ParseLine(line, parseFloat).Err?
  {
    FieldWithoutCommaFails("", parseFloat);
  }

  /** A stripped line that ends in a space has an empty last field and fails to parse. */
  lemma TrailingSpaceFails(line: string, parseFloat: FloatParser)
    requires |StripNewlines(line)| > 0 && StripNewlines(line)[|StripNewlines(line)| - 1] == ' '
    ensures ParseLine(line, parseFloat).Err?
  {
    var s := StripNewlines(line);
    assert s == s[..|s| - 1] + [' '];
    TrailingSeparator(s[..|s| - 1], ' ');
    EmptyFieldFails(line, |LineFields(line)| - 1, parseFloat);
  }

  /** A stripped line containing two spaces in a row has an empty coordinate field and fails to parse. */
  lemma {:induction false} DoubledSpaceFails(line: string, a: string, b: string, parseFloat: FloatParser)
    requires StripNewlines(line) == a + "  " + b
    ensures ParseLine(line, parseFloat).Err?
  {
    DoubledSeparator(a, b, ' ');
    EmptyFieldFails(line, |Split(a, ' ')|, parseFloat);
  }

  /** The name of a line that holds a space is the text before its first space. */
  lemma NameIsFirstField(line: string, name: string, rest: string)
    requires LineShaped(line)
    requires ' ' !in name
    requires line == name + " " + rest
    ensures LineName(line) == name
  {
    StripLine(line);
    var rest' := if line[|line| - 1] == '\n' then rest[..|rest| - 1] else rest;
    assert StripNewlines(line) == name + " " + rest';
    FirstFieldOf(name, rest', ' ');
  }
}

=== FILE: plotting.dfy ===
/**
 * The `OpinionPlot` object: construction from one file (respondents, their average points,
 * the CV processor and the word-count labels), the closed outline and colour `plotPerson`
 * draws, and the cluster post-processing of `plotClusters`.
 */
module Plotting {
  import opened Base
  import opened Text
  import opened Geometry
  import opened Colour
  import opened People
  import opened Documents

  /** The state of an `OpinionPlot` after `__init__`; `clusters` is always empty and is not kept. */
  datatype OpinionPlot = OpinionPlot(people: seq<Person>, avgPoints: seq<Option<Point>>, cvp: CVProcessor)

  const LabelPrefix := "Word Count: "

  /** The label a respondent receives from the word count of its CV. */
  function WordCountLabel(wordCount: nat): (s: string)
    ensures |s| > |LabelPrefix| && s[..|LabelPrefix|] == LabelPrefix
    ensures forall k :: |LabelPrefix| <= k < |s| ==> IsDigit(s[k])
  {
    LabelPrefix + NatToString(wordCount)
  }

  /**
   * The label loop of `__init__`: respondent i is labelled with the word count of CV i.
   * The join is by position, so it raises IndexError when there are fewer CVs than people.
   */
  function AttachLabels(people: seq<Person>, cvs: seq<CV>): (r: Result<seq<Person>>)
    ensures r.Ok? <==> |cvs| >= |people|
    ensures r.Err? ==> r.error == LabelIndexOutOfRange(|cvs|)
    ensures r.Ok? ==> |r.value| == |people|
    ensures r.Ok? ==> forall i :: 0 <= i < |people| ==>
      && r.value[i].name == people[i].name
      && r.value[i].coordinates == people[i].coordinates
      && r.value[i].avgPoint == people[i].avgPoint
      && r.value[i].additionalLabel == WordCountLabel(cvs[i].wordCount)
  {
    if |cvs| < |people| then Err(LabelIndexOutOfRange(|cvs|))
    else Ok(seq(|people|, i requires 0 <= i < |people| => people[i].WithLabel(WordCountLabel(cvs[i].wordCount))))
  }

  /**
   * `OpinionPlot(filePath)` on a file with contents `text`. Both readers iterate over the
   * same file, so there is exactly one CV per respondent and the positional label join
   * never fails: the only errors are a malformed coordinate and a missing CV document.
   */
  function NewOpinionPlot(text: string, parseFloat: FloatParser, readDoc: DocumentReader): (r: Result<OpinionPlot>)
    ensures r.Ok? ==> |r.value.people| == |Lines(text)| == |r.value.cvp.cvs| == |r.value.avgPoints|
    ensures r.Ok? ==> forall i :: 0 <= i < |r.value.people| ==>
      && r.value.people[i].Consistent()
      && r.value.avgPoints[i] == r.value.people[i].avgPoint
      && r.value.people[i].name == LineName(Lines(text)[i])
      && r.value.cvp.cvs[i].name == ReadName(Lines(text)[i])
      && r.value.people[i].additionalLabel == WordCountLabel(r.value.cvp.cvs[i].wordCount)
    ensures r.Ok? ==> forall i :: 0 <= i < |r.value.people| ==>
      ParseLine(Lines(text)[i], parseFloat) == Ok(r.value.people[i].WithLabel(""))
    ensures r.Ok? ==> NewCVProcessor(text, readDoc) == Ok(r.value.cvp)
    ensures r.Ok? <==> ReadFile(Lines(text), parseFloat).Ok? && NewCVProcessor(text, readDoc).Ok?
    ensures ReadFile(Lines(text), parseFloat).Err? ==> r == Err(ReadFile(Lines(text), parseFloat).error)
    ensures ReadFile(Lines(text), parseFloat).Ok? && NewCVProcessor(text, readDoc).Err? ==>
      r == Err(NewCVProcessor(text, readDoc).error)
    ensures r.Err? ==> IsParseError(r.error) || r.error.DocumentNotFound?
  {
    var lines := Lines(text);
    var people :- ReadFile(lines, parseFloat);
    var avgPoints := CompileAvgPoints(people);
    var cvp :- NewCVProcessor(text, readDoc);
    LabelledPeople(lines, parseFloat, people, cvp.cvs);
    Ok(OpinionPlot(AttachLabels(people, cvp.cvs).value, avgPoints, cvp))
  }

  /**
   * End to end: respondent i is labelled with the number of tokens in the document of the
   * name `readData` takes from line i, and that document exists.
   */
  lemma LabelIsDocumentLength(text: string, parseFloat: FloatParser, readDoc: DocumentReader)
    requires NewOpinionPlot(text, parseFloat, readDoc).Ok?
    ensures var plot := NewOpinionPlot(text, parseFloat, readDoc).value;
      forall i :: 0 <= i < |plot.people| ==>
        && readDoc(ReadName(Lines(text)[i])).Some?
        && plot.people[i].additionalLabel == WordCountLabel(|readDoc(ReadName(Lines(text)[i])).value|)
  {
    var plot := NewOpinionPlot(text, parseFloat, readDoc).value;
    var cvp := plot.cvp;
    forall i | 0 <= i < |plot.people|
      ensures readDoc(ReadName(Lines(text)[i])).Some?
      ensures plot.people[i].additionalLabel == WordCountLabel(|readDoc(ReadName(Lines(text)[i])).value|)
    {
      assert cvp.names[i] == ReadName(Lines(text)[i]);
      assert cvp.cvs[i] == NewCV(cvp.names[i], LowerAll(readDoc(cvp.names[i]).value));
    }
  }

  /**
   * Once every line has parsed and there is one CV per line, the label join succeeds and
   * respondent i is the parse of line i with CV i's word count as its label.
   */
  lemma LabelledPeople(lines: seq<string>, parseFloat: FloatParser, people: seq<Person>, cvs: seq<CV>)
    requires ReadFile(lines, parseFloat) == Ok(people)
    requires |cvs| == |lines|
    ensures AttachLabels(people, cvs).Ok?
    ensures var labelled := AttachLabels(people, cvs).value;
      && |labelled| == |lines|
      && forall i :: 0 <= i < |lines| ==>
        && ParseLine(lines[i], parseFloat) == Ok(labelled[i].WithLabel(""))
        && labelled[i].Consistent()
        && labelled[i].name == LineName(lines[i])
        && labelled[i].additionalLabel == WordCountLabel(cvs[i].wordCount)
  {
    var labelled := AttachLabels(people, cvs).value;
    forall i | 0 <= i < |lines|
      ensures ParseLine(lines[i], parseFloat) == Ok(labelled[i].WithLabel(""))
    {
      assert ParseLine(lines[i], parseFloat) == Ok(people[i]);
      assert people[i].additionalLabel == "";
    }
  }

  // ---------------------------------------------------------------- names from the two readers

  /** For a line that holds a space, both readers take the same name: the text before the first space. */
  lemma NamesAgree(line: string)
    requires LineShaped(line) && ' ' in line
    ensures LineName(line) == ReadName(line)
  {
    var name := ReadName(line);
    ReadNameIsPrefix(line);
    assert |name| < |line|;
    assert line == name + " " + line[|name| + 1..];
    NameIsFirstField(line, name, line[|name| + 1..]);
  }

  /**
   * For a newline-terminated line without a space the readers disagree: `readData` keeps
   * the newline in the name, `readFile` strips it.
   */
  lemma NamesDisagreeWithoutSpace(line: string)
    requires LineShaped(line) && ' ' !in line && line[|line| - 1] == '\n'
    ensures ReadName(line) == line
    ensures LineName(line) == line[..|line| - 1]
    ensures ReadName(line) != LineName(line)
  {
    ReadNameIsPrefix(line);
    StripLine(line);
    SplitWithoutSeparator(line[..|line| - 1], ' ');
  }

  /** The word count can be read back from a respondent's label. */
  lemma LabelRoundTrip(wordCount: nat)
    ensures |WordCountLabel(wordCount)| > |LabelPrefix|
    ensures WordCountLabel(wordCount)[..|LabelPrefix|] == LabelPrefix
    ensures var digits := WordCountLabel(wordCount)[|LabelPrefix|..];
      (forall k :: 0 <= k < |digits| ==> IsDigit(digits[k])) && DecimalValue(digits) == wordCount
  {
    var text := WordCountLabel(wordCount);
    assert text[|LabelPrefix|..] == NatToString(wordCount);
    NatToStringRoundTrip(wordCount);
  }

  // ---------------------------------------------------------------- plotPerson

  /** The x and y lists handed to `plt.plot`. */
  datatype Polyline = Polyline(xs: seq<real>, ys: seq<real>)

  /** The vertices of a polyline whose two lists have equal length. */
  function Vertices(line: Polyline): (vs: seq<Point>)
    requires |line.xs| == |line.ys|
    ensures |vs| == |line.xs|
    ensures forall i :: 0 <= i < |vs| ==> vs[i] == Point(line.xs[i], line.ys[i])
  {
    seq(|line.xs|, i requires 0 <= i < |line.xs| => Point(line.xs[i], line.ys[i]))
  }

  /** `line` is the outline through `points`, closed by repeating the first point. */
  predicate Closes(points: seq<Point>, line: Polyline) {
    && |points| > 0
    && |line.xs| == |points| + 1 == |line.ys|
    && (forall i :: 0 <= i < |points| ==> line.xs[i] == points[i].x && line.ys[i] == points[i].y)
    && line.xs[|points|] == line.xs[0]
    && line.ys[|points|] == line.ys[0]
  }

  /**
   * The vertex lists of `plotPerson`: the coordinates in order, then the first one again.
   * `xs[0]` raises IndexError on an empty coordinate list, modelled as None.
   */
  method ClosedOutline(points: seq<Point>) returns (outline: Option<Polyline>)
    ensures outline.None? <==> |points| == 0
    ensures outline.Some? ==> Closes(points, outline.value)
  {
    var xs: seq<real> := [];
    var ys: seq<real> := [];
    var i := 0;
    while i < |points|
      invariant 0 <= i <= |points|
      invariant |xs| == i == |ys|
      invariant forall j :: 0 <= j < i ==> xs[j] == points[j].x && ys[j] == points[j].y
    {
      xs := xs + [points[i].x];
      ys := ys + [points[i].y];
      i := i + 1;
    }
    if |xs| == 0 {
      return None;
    }
    xs := xs + [xs[0]];
    ys := ys + [ys[0]];
    return Some(Polyline(xs, ys));
  }

  /** The closed outline visits the points in order and returns to where it started. */
  lemma ClosedOutlineVertices(points: seq<Point>, line: Polyline)
    requires Closes(points, line)
    ensures Vertices(line) == points + [points[0]]
  {
  }

  /** What `plotPerson` draws: the outline, the average-point marker, their colour and the caption. */
  datatype PersonDrawing = PersonDrawing(outline: Polyline, marker: Point, colour: Rgb, caption: string)

  /**
   * `plotPerson`: the closed outline of the coordinates and a marker at the average point,
   * both coloured by the average point at the default scale, captioned with name and label.
   */
  method PlotPerson(person: Person) returns (r: Result<PersonDrawing>)
    requires person.Consistent()
    ensures r.Err? <==> |person.coordinates| == 0
    ensures r.Err? ==> r.error == EmptyCoordinates(person.name)
    ensures r.Ok? ==> Closes(person.coordinates, r.value.outline)
    ensures r.Ok? ==> r.value.marker == Centroid(person.coordinates)
    ensures r.Ok? ==> r.value.colour == CalcColour(r.value.marker, DefaultScale, DefaultScale)
    ensures r.Ok? ==> r.value.caption == person.name + " " + person.additionalLabel
  {
    var outline := ClosedOutline(person.coordinates);
    if outline.None? {
      return Err(EmptyCoordinates(person.name));
    }
    var avg := person.avgPoint.value;
    var colour := CalcColour(avg, DefaultScale, DefaultScale);
    return Ok(PersonDrawing(outline.value, avg, colour, person.name + " " + person.additionalLabel));
  }

  // ---------------------------------------------------------------- plotClusters

  const MaxClusters := 6

  /** The fixed palette indexed by cluster id: red, green, blue, yellow, magenta, cyan. */
  const Palette: seq<Rgb> := [
    Rgb(1.0, 0.0, 0.0), Rgb(0.0, 1.0, 0.0), Rgb(0.0, 0.0, 1.0),
    Rgb(1.0, 1.0, 0.0), Rgb(1.0, 0.0, 1.0), Rgb(0.0, 1.0, 1.0)
  ]

  /** The requested cluster count with a hard ceiling of six; smaller requests pass through. */
  function ClampClusters(clusterNum: int): (k: int)
    ensures k <= MaxClusters
    ensures k <= clusterNum
    ensures k == clusterNum || k == MaxClusters
  {
    if clusterNum > MaxClusters then MaxClusters else clusterNum
  }

  /** What KMeans returns after `fit` and `predict` on the same points: the centres and each point's cluster id. */
  datatype Fit = Fit(centres: seq<Point>, ids: seq<int>)

  /** A fit of n points into k clusters: k centres and an id in [0, k) per point. */
  predicate ValidFit(fit: Fit, n: nat, k: int) {
    && |fit.centres| == k
    && |fit.ids| == n
    && forall i :: 0 <= i < n ==> 0 <= fit.ids[i] < k
  }

  /** The clustering library: points and a cluster count to a fit. */
  type KMeans = (seq<Point>, int) -> Fit

  /** The library keeps its promise on every input it accepts (1 <= k <= number of points). */
  ghost predicate HonestKMeans(kmeans: KMeans) {
    forall pts: seq<Point>, k: int :: 1 <= k <= |pts| ==> ValidFit(kmeans(pts, k), |pts|, k)
  }

  /** One respondent in the cluster view: its marker, its cluster's colour and the centre it is linked to. */
  datatype ClusterMark = ClusterMark(name: string, at: Point, colour: Rgb, centre: Point)

  /** The cluster view: one mark per respondent and the centres drawn as black crosses. */
  datatype ClusterDrawing = ClusterDrawing(marks: seq<ClusterMark>, centres: seq<Point>)

  /**
   * The drawing loop of `plotClusters`: point i is coloured `cols[id_i]` and linked to
   * centre `(cx[id_i], cy[id_i])`. Every palette index is in bounds since k is at most six.
   */
  method LinkClusters(names: seq<string>, pts: seq<Point>, fit: Fit, k: int) returns (marks: seq<ClusterMark>)
    requires |names| == |pts|
    requires 1 <= k <= MaxClusters
    requires ValidFit(fit, |pts|, k)
    ensures |marks| == |pts|
    ensures forall i :: 0 <= i < |pts| ==>
      marks[i] == ClusterMark(names[i], pts[i], Palette[fit.ids[i]], fit.centres[fit.ids[i]])
    ensures forall i :: 0 <= i < |pts| ==> marks[i].colour in Palette[..k]
  {
    marks := [];
    var i := 0;
    while i < |pts|
      invariant 0 <= i <= |pts|
      invariant |marks| == i
      invariant forall j :: 0 <= j < i ==>
        marks[j] == ClusterMark(names[j], pts[j], Palette[fit.ids[j]], fit.centres[fit.ids[j]])
      invariant forall j :: 0 <= j < i ==> marks[j].colour in Palette[..k]
    {
      var id := fit.ids[i];
      assert Palette[id] == Palette[..k][id];
      marks := marks + [ClusterMark(names[i], pts[i], Palette[id], fit.centres[id])];
      i := i + 1;
    }
  }

  /** Every average point is a number (numpy produced no NaN). */
  predicate AllDefined(avgPoints: seq<Option<Point>>) {
    forall i :: 0 <= i < |avgPoints| ==> avgPoints[i].Some?
  }

  function DefinedValues(avgPoints: seq<Option<Point>>): (pts: seq<Point>)
    requires AllDefined(avgPoints)
    ensures |pts| == |avgPoints|
    ensures forall i :: 0 <= i < |pts| ==> avgPoints[i] == Some(pts[i])
  {
    seq(|avgPoints|, i requires 0 <= i < |avgPoints| => avgPoints[i].value)
  }

  /**
   * `plotClusters(figNum, clusterNum)` after the fit: the count is clamped to six, KMeans
   * refuses a count below one, a NaN average point and fewer points than clusters, and
   * otherwise every respondent is drawn in its cluster's palette colour and linked to its
   * cluster's centre.
   */
  method PlotClusters(plot: OpinionPlot, clusterNum: int, kmeans: KMeans) returns (r: Result<ClusterDrawing>)
    requires HonestKMeans(kmeans)
    requires |plot.avgPoints| == |plot.people|
    ensures ClampClusters(clusterNum) < 1 ==> r == Err(InvalidClusterCount(ClampClusters(clusterNum)))
    ensures ClampClusters(clusterNum) >= 1 && !AllDefined(plot.avgPoints) ==> r == Err(UndefinedAverage)
    ensures ClampClusters(clusterNum) >= 1 && AllDefined(plot.avgPoints) && |plot.people| < ClampClusters(clusterNum) ==>
      r == Err(TooFewSamples(|plot.people|, ClampClusters(clusterNum)))
    ensures r.Ok? <==> 1 <= ClampClusters(clusterNum) <= |plot.people| && AllDefined(plot.avgPoints)
    ensures r.Ok? ==>
      var k := ClampClusters(clusterNum);
      var fit := kmeans(DefinedValues(plot.avgPoints), k);
      && r.value.centres == fit.centres
      && |r.value.centres| == k
      && |r.value.marks| == |plot.people|
      && forall i :: 0 <= i < |plot.people| ==>
        && r.value.marks[i].name == plot.people[i].name
        && plot.avgPoints[i] == Some(r.value.marks[i].at)
        && 0 <= fit.ids[i] < k
        && r.value.marks[i].colour == Palette[fit.ids[i]]
        && r.value.marks[i].centre == fit.centres[fit.ids[i]]
  {
    var k := ClampClusters(clusterNum);
    if k < 1 {
      return Err(InvalidClusterCount(k));
    }
    if !AllDefined(plot.avgPoints) {
      return Err(UndefinedAverage);
    }
    var pts := DefinedValues(plot.avgPoints);
    if |pts| < k {
      return Err(TooFewSamples(|pts|, k));
    }
    var fit := kmeans(pts, k);
    var names := seq(|plot.people|, i requires 0 <= i < |plot.people| => plot.people[i].name);
    var marks := LinkClusters(names, pts, fit, k);
    return Ok(ClusterDrawing(marks, fit.centres));
  }

  // ---------------------------------------------------------------- properties of clustering

  /** Clamping twice is clamping once. */
  lemma ClampIdempotent(clusterNum: int)
    ensures ClampClusters(ClampClusters(clusterNum)) == ClampClusters(clusterNum)
  {
  }

  /** Clamping keeps the order of requests. */
  lemma ClampMonotone(a: int, b: int)
    requires a <= b
    ensures ClampClusters(a) <= ClampClusters(b)
  {
  }

  /** The ids 0 .. k-1. */
  function IdRange(k: nat): (ids: set<int>)
    ensures forall j :: j in ids <==> 0 <= j < k
    ensures |ids| == k
  {
    if k == 0 then {} else IdRange(k - 1) + {k - 1}
  }

  lemma SubsetSize(a: set<int>, b: set<int>)
    requires a <= b
    ensures |a| <= |b|
  {
    assert b == a + (b - a);
    assert a * (b - a) == {};
  }

  /** A valid fit into k clusters uses at most k distinct ids. */
  lemma DistinctIdsAtMostK(fit: Fit, n: nat, k: nat)
    requires ValidFit(fit, n, k)
    ensures |set i | 0 <= i < n :: fit.ids[i]| <= k
  {
    var used := set i | 0 <= i < n :: fit.ids[i];
    SubsetSize(used, IdRange(k));
  }

  /** However many clusters are requested, a successful cluster view uses at most six distinct cluster ids. */
  lemma AtMostSixClusters(plot: OpinionPlot, clusterNum: int, kmeans: KMeans)
    requires HonestKMeans(kmeans)
    requires 1 <= ClampClusters(clusterNum) <= |plot.avgPoints| && AllDefined(plot.avgPoints)
    ensures var pts := DefinedValues(plot.avgPoints);
      var fit := kmeans(pts, ClampClusters(clusterNum));
      |set i | 0 <= i < |pts| :: fit.ids[i]| <= MaxClusters
  {
    var pts := DefinedValues(plot.avgPoints);
    var k := ClampClusters(clusterNum);
    assert ValidFit(kmeans(pts, k), |pts|, k);
    DistinctIdsAtMostK(kmeans(pts, k), |pts|, k);
  }
}

=== FILE: text.dfy ===
/**
 * The string operations of Python that the program relies on: `str.split` with an explicit
 * one-character separator, iteration over the lines of a text file, `str.strip('\n')`,
 * `str.lower()` and `str(n)` for a natural number.
 */
module Text {

  // ---------------------------------------------------------------- split and join

  /** No field contains the separator. */
  predicate SeparatorFree(fs: seq<string>, sep: char) {
    forall i :: 0 <= i < |fs| ==> sep !in fs[i]
  }

  /** `sep.join(fs)`: the inverse of `Split`. */
  function Join(fs: seq<string>, sep: char): string
    requires |fs| > 0
    decreases |fs|
  {
    if |fs| == 1 then fs[0] else fs[0] + [sep] + Join(fs[1..], sep)
  }

  /** Prefixing the first field prefixes the joined string. */
  lemma {:induction false} JoinConsHead(c: char, fs: seq<string>, sep: char)
    requires |fs| > 0
    ensures Join([[c] + fs[0]] + fs[1..], sep) == [c] + Join(fs, sep)
  {
    var gs := [[c] + fs[0]] + fs[1..];
    assert gs[1..] == fs[1..];
  }

  /**
   * `s.split(sep)`: the maximal fields between separators, empty ones included, so that
   * `"".split(sep) == [""]` and a doubled separator yields an empty field.
   */
  function Split(s: string, sep: char): (fs: seq<string>)
    ensures |fs| > 0
    ensures SeparatorFree(fs, sep)
    ensures Join(fs, sep) == s
    decreases |s|
  {
    if |s| == 0 then [""]
    else
      var rest := Split(s[1..], sep);
      if s[0] == sep then
        assert ([""] + rest)[1..] == rest;
        assert s == [sep] + s[1..];
        [""] + rest
      else
        JoinConsHead(s[0], rest, sep);
        assert s == [s[0]] + s[1..];
        [[s[0]] + rest[0]] + rest[1..]
  }

  /** The text before the first separator is determined by the joined string. */
  lemma FirstFieldUnique(x: string, y: string, x': string, y': string, sep: char)
    requires sep !in x && sep !in x'
    requires x + [sep] + y == x' + [sep] + y'
    ensures x == x' && y == y'
  {
    var s := x + [sep] + y;
    assert forall k :: 0 <= k < |x| ==> s[k] == x[k] != sep;
    assert forall k :: 0 <= k < |x'| ==> s[k] == x'[k] != sep;
    assert s[|x|] == sep && s[|x'|] == sep;
    assert |x| == |x'|;
    assert x == s[..|x|] == x';
    assert y == s[|x| + 1..] == y';
  }

  /** Joining separator-free fields loses nothing. */
  lemma {:induction false} JoinInjective(a: seq<string>, b: seq<string>, sep: char)
    requires |a| > 0 && |b| > 0
    requires SeparatorFree(a, sep) && SeparatorFree(b, sep)
    requires Join(a, sep) == Join(b, sep)
    ensures a == b
    decreases |a|
  {
    if |a| > 1 && |b| > 1 {
      FirstFieldUnique(a[0], Join(a[1..], sep), b[0], Join(b[1..], sep), sep);
      JoinInjective(a[1..], b[1..], sep);
      assert a == [a[0]] + a[1..];
      assert b == [b[0]] + b[1..];
    }
  }

  /** Round trip: splitting a join of separator-free fields gives the fields back. */
  lemma SplitJoin(fs: seq<string>, sep: char)
    requires |fs| > 0 && SeparatorFree(fs, sep)
    ensures Split(Join(fs, sep), sep) == fs
  {
    JoinInjective(Split(Join(fs, sep), sep), fs, sep);
  }

  /** A string without the separator is a single field. */
  lemma SplitWithoutSeparator(s: string, sep: char)
    requires sep !in s
    ensures Split(s, sep) == [s]
  {
    SplitJoin([s], sep);
  }

  lemma {:induction false} JoinAppend(a: seq<string>, b: seq<string>, sep: char)
    requires |a| > 0 && |b| > 0
    ensures Join(a + b, sep) == Join(a, sep) + [sep] + Join(b, sep)
    decreases |a|
  {
    if |a| == 1 {
      assert (a + b)[1..] == b;
    } else {
      assert (a + b)[1..] == a[1..] + b;
      JoinAppend(a[1..], b, sep);
    }
  }

  lemma SeparatorFreeAppend(a: seq<string>, b: seq<string>, sep: char)
    requires SeparatorFree(a, sep) && SeparatorFree(b, sep)
    ensures SeparatorFree(a + b, sep)
  {
    assert forall i :: |a| <= i < |a + b| ==> (a + b)[i] == b[i - |a|];
  }

  /** Splitting distributes over one separator occurrence. */
  lemma {:induction false} SplitAround(a: string, b: string, sep: char)
    ensures Split(a + [sep] + b, sep) == Split(a, sep) + Split(b, sep)
  {
    var fa, fb := Split(a, sep), Split(b, sep);
    JoinAppend(fa, fb, sep);
    SeparatorFreeAppend(fa, fb, sep);
    SplitJoin(fa + fb, sep);
  }

  /**
   * The first field is the prefix before the first separator, or the whole string when
   * there is none.
   */
  lemma FirstFieldIsPrefix(s: string, sep: char)
    ensures var f := Split(s, sep)[0];
      && f <= s
      && sep !in f
      && (|f| < |s| ==> s[|f|] == sep)
      && (sep !in s ==> f == s)
  {
    var fs := Split(s, sep);
    if |fs| > 1 {
      assert s == fs[0] + [sep] + Join(fs[1..], sep);
    }
  }

  /** The first field of `name + sep + rest` is `name` when `name` holds no separator. */
  lemma FirstFieldOf(name: string, rest: string, sep: char)
    requires sep !in name
    ensures Split(name + [sep] + rest, sep)[0] == name
  {
    SplitAround(name, rest, sep);
    SplitWithoutSeparator(name, sep);
  }

  /** A string ending in the separator ends in an empty field. */
  lemma {:induction false} TrailingSeparator(a: string, sep: char)
    ensures var fs := Split(a + [sep], sep); |fs| >= 2 && fs[|fs| - 1] == ""
  {
    SplitAround(a, "", sep);
    assert a + [sep] + "" == a + [sep];
  }

  /** A doubled separator yields an empty field that is not the first one. */
  lemma DoubledSeparator(a: string, b: string, sep: char)
    ensures var fs := Split(a + [sep, sep] + b, sep);
      |Split(a, sep)| < |fs| && fs[|Split(a, sep)|] == ""
  {
    assert a + [sep, sep] + b == a + [sep] + ([sep] + b);
    SplitAround(a, [sep] + b, sep);
    assert [sep] + b == "" + [sep] + b;
    SplitAround("", b, sep);
  }

  // ---------------------------------------------------------------- lines of a file

  /** A line as file iteration yields it: non-empty, with a newline at most as its last character. */
  predicate LineShaped(l: string) {
    |l| > 0 && forall k :: 0 <= k < |l| - 1 ==> l[k] != '\n'
  }

  function Concat(ls: seq<string>): string
    decreases |ls|
  {
    if |ls| == 0 then "" else ls[0] + Concat(ls[1..])
  }

  /**
   * The lines `for l in f` yields: the text is cut after every '\n', each line keeps its
   * newline, and a final line without one is yielded as it is.
   */
  function Lines(t: string): (ls: seq<string>)
    ensures Concat(ls) == t
    ensures |ls| == 0 <==> |t| == 0
    ensures forall i :: 0 <= i < |ls| ==> LineShaped(ls[i])
    ensures forall i :: 0 <= i < |ls| - 1 ==> |ls[i]| > 0 && ls[i][|ls[i]| - 1] == '\n'
    decreases |t|
  {
    if |t| == 0 then []
    else
      var rest := Lines(t[1..]);
      assert t == [t[0]] + t[1..];
      if t[0] == '\n' || |rest| == 0 then
        assert ([[t[0]]] + rest)[1..] == rest;
        [[t[0]]] + rest
      else
        var ls := [[t[0]] + rest[0]] + rest[1..];
        assert ls[1..] == rest[1..];
        assert Concat(rest) == rest[0] + Concat(rest[1..]);
        assert forall i :: 1 <= i < |ls| ==> ls[i] == rest[i];
        ls
  }

  // ---------------------------------------------------------------- strip('\n')

  /** `s.lstrip('\n')`. */
  function TrimLeadingNewlines(s: string): (r: string)
    ensures |r| <= |s| && r == s[|s| - |r|..]
    ensures forall k :: 0 <= k < |s| - |r| ==> s[k] == '\n'
    ensures |r| > 0 ==> r[0] != '\n'
    decreases |s|
  {
    if |s| > 0 && s[0] == '\n' then TrimLeadingNewlines(s[1..]) else s
  }

  /** `s.rstrip('\n')`. */
  function TrimTrailingNewlines(s: string): (r: string)
    ensures |r| <= |s| && r == s[..|r|]
    ensures forall k :: |r| <= k < |s| ==> s[k] == '\n'
    ensures |r| > 0 ==> r[|r| - 1] != '\n'
    decreases |s|
  {
    if |s| > 0 && s[|s| - 1] == '\n' then TrimTrailingNewlines(s[..|s| - 1]) else s
  }

  /** `s.strip('\n')`: removes every newline at either end and nothing else. */
  function StripNewlines(s: string): (r: string)
    ensures |r| <= |s|
    ensures |r| > 0 ==> r[0] != '\n' && r[|r| - 1] != '\n'
    ensures '\n' !in s ==> r == s
  {
    TrimTrailingNewlines(TrimLeadingNewlines(s))
  }

  /** What `strip('\n')` keeps is one piece of its input with nothing but newlines around it. */
  lemma StripNewlinesKeepsInfix(s: string)
    ensures var r := StripNewlines(s);
      exists i :: (0 <= i <= |s| - |r| && r <= s[i..] &&
        (forall k :: 0 <= k < i ==> s[k] == '\n') && (forall k :: i + |r| <= k < |s| ==> s[k] == '\n'))
  {
    var u := TrimLeadingNewlines(s);
    var r := TrimTrailingNewlines(u);
    var i := |s| - |u|;
    assert r <= s[i..];
  }

  /** Stripping a line yields its text without the terminating newline. */
  lemma StripLine(l: string)
    requires LineShaped(l)
    ensures l[|l| - 1] == '\n' ==> StripNewlines(l) == l[..|l| - 1]
    ensures l[|l| - 1] != '\n' ==> StripNewlines(l) == l
  {
    var r := StripNewlines(l);
    var u := TrimLeadingNewlines(l);
    if |l| > 1 {
      assert u == l;
    }
    if l[|l| - 1] == '\n' {
      if |l| > 1 {
        assert l[..|l| - 1][|l| - 2] != '\n';
      }
    }
  }

  // ---------------------------------------------------------------- lower()

  /** Lower-casing of one character; only the ASCII letters A-Z change. */
  function LowerChar(c: char): char {
    if 'A' <= c <= 'Z' then (c as int - 'A' as int + 'a' as int) as char else c
  }

  /** `s.lower()`: no upper-case letter survives and every other character is kept. */
  function Lower(s: string): (r: string)
    ensures |r| == |s|
    ensures forall k :: 0 <= k < |s| ==> r[k] == LowerChar(s[k])
    ensures forall k :: 0 <= k < |r| ==> !('A' <= r[k] <= 'Z')
    ensures forall k :: 0 <= k < |s| && !('A' <= s[k] <= 'Z') ==> r[k] == s[k]
    ensures forall k :: 0 <= k < |s| && 'A' <= s[k] <= 'Z' ==> r[k] as int == s[k] as int + 32
  {
    seq(|s|, k requires 0 <= k < |s| => LowerChar(s[k]))
  }

  /** Lower-casing is idempotent: a lower-cased string is its own lower case. */
  lemma LowerIdempotent(s: string)
    ensures Lower(Lower(s)) == Lower(s)
  {
  }

  /** Exactly "i" and "I" lower-case to "i". */
  lemma LowerIsI(s: string)
    ensures Lower(s) == "i" <==> s == "i" || s == "I"
  {
    if Lower(s) == "i" {
      assert |s| == 1 && LowerChar(s[0]) == 'i';
    }
  }

  // ---------------------------------------------------------------- str(n)

  function DigitChar(d: nat): char
    requires d < 10
  {
    ('0' as int + d) as char
  }

  predicate IsDigit(c: char) {
    '0' <= c <= '9'
  }

  /** The value of a decimal digit string. */
  function DecimalValue(s: string): nat
    requires forall k :: 0 <= k < |s| ==> IsDigit(s[k])
    decreases |s|
  {
    if |s| == 0 then 0
    else
      assert IsDigit(s[|s| - 1]);
      DecimalValue(s[..|s| - 1]) * 10 + (s[|s| - 1] as int - '0' as int)
  }

  /** `str(n)` for a natural number: its shortest decimal rendering. */
  function NatToString(n: nat): (s: string)
    ensures |s| > 0
    ensures forall k :: 0 <= k < |s| ==> IsDigit(s[k])
    ensures s[0] == '0' ==> n == 0
    decreases n
  {
    if n < 10 then [DigitChar(n)] else NatToString(n / 10) + [DigitChar(n % 10)]
  }

  /** Round trip: reading back the rendering of `n` gives `n`. */
  lemma {:induction false} NatToStringRoundTrip(n: nat)
    ensures DecimalValue(NatToString(n)) == n
    decreases n
  {
    var s := NatToString(n);
    if n >= 10 {
      NatToStringRoundTrip(n / 10);
      assert s[..|s| - 1] == NatToString(n / 10);
    }
  }
}
